=== FILE: README.md ===
# Jumi actor thread and text UI, modelled in Dafny

This project models two sequential cores of the Jumi test runner as pure state
machines over immutable values.

**The actor thread** (`actors.dfy`, module `Actors`). An actor thread owns one
FIFO queue of tasks. A task is either a delivery of an event to a bound raw
actor or the death pill that `stop()` enqueues. The sender behind a bound
actor reference first tells the message logger that a message was sent, then
enqueues the delivery. `processNextMessage` takes the head task and runs it.
`processNextMessageIfAny` does the same, but answers `false` without doing
anything when the queue is empty. Running a delivery logs "processing
started", fires the event on the receiver, and logs "processing finished" even
when the actor body throws. The exception is not caught. Running the death
pill sets the worker's interrupt flag.

The model keeps:

- the queue as a `seq<Task>`;
- each receiver as the list of events fired on it;
- this thread's part of the message logger's output as an append-only trace;
- the interrupt flag as a boolean.

What each actor body does (return, or throw an error) is passed in as a
parameter, `body: (ActorId, Event) -> Outcome`. A fired event is recorded on
its receiver whether or not the body throws, because the method was invoked
either way.

**The text UI** (`text_ui.dfy`, module `TextUI`). The UI folds a stream of
suite listener events into:

- test names keyed by (class, id);
- one event log per run;
- the sets of distinct started and distinct failed tests.

When a test finishes, the UI re-reads the run's log with the status
evaluator. The run is finished when the running-tests counter is back to 0.
A finished run is printed by the run printer: a header, then indented `+`/`-`
lines, with stack traces going to `err`. `onSuiteFinished` prints
`pass = total - fail` and stops the `update` loop. The two output streams are
sequences of abstract lines.

`getTestName` asserts that the name is present. The model turns that assert
into a precondition on printing. `OnTestFinished` requires it only when the
finish completes the run, which is exactly when the source would evaluate the
assert. `Fire` and `Update` carry the same condition along the stream
(`Printable`, `SafeAlong`).

Some functions model source functions but have no contract of their own,
so they have no row below. Their behaviour is stated by the lemmas and
functions named in parentheses:
- `bindActor` is `Actors.BindActor`;
- `getTestName` is `TextUI.GetTestName`;
- `isRunFinished` is `TextUI.IsRunFinished` (`TextUI.RunFinishedIff`);
- the status evaluator is `TextUI.StatusStep` and `TextUI.EvaluateStatus`
  (`TextUI.EvaluateStatusCounts`);
- `printRun` is `TextUI.PrintRun` (`TextUI.PrintEvents`, `TextUI.OnTestFinished`).

## Model

| member | source | states |
|---|---|---|
| Actors.NewActorThread | jumi-actors/src/main/java/fi/jumi/actors/Actors.java:25-37 | A new actor thread has an empty queue, nothing in its part of the logger trace, no events fired on any receiver and no interrupt; it satisfies the thread invariants |
| Actors.Execute | jumi-actors/src/main/java/fi/jumi/actors/Actors.java:51-54 | `execute` appends the task at the tail and always succeeds, also after `stop` or an interrupt; nothing else changes |
| Actors.Stop | jumi-actors/src/main/java/fi/jumi/actors/Actors.java:46-49 | `stop` puts the death pill behind every task already queued and changes nothing else |
| Actors.Send | jumi-actors/src/main/java/fi/jumi/actors/Actors.java:87-91 | Sending through a bound reference records `onMessageSent(event)` in the trace and appends a delivery of that event to the bound receiver |
| Actors.RunTask | jumi-actors/src/main/java/fi/jumi/actors/Actors.java:104-121 | A delivery logs started then finished whatever the body does, fires the event on its own receiver only, and returns the body's outcome; the death pill only sets the interrupt flag |
| Actors.ProcessNextMessage | jumi-actors/src/main/java/fi/jumi/actors/Actors.java:56-60 | The head task is removed and run: the trace gains exactly the head's started/finished entries, and only the head delivery's receiver gets its event; the call throws exactly when the head is a delivery whose body throws, and then with that error; the interrupt flag is set iff the head is the death pill; the thread invariants are preserved |
| Actors.ProcessNextMessageIfAny | jumi-actors/src/main/java/fi/jumi/actors/Actors.java:62-74 | On an empty queue: returns false and leaves queue, trace and receivers unchanged. Otherwise: removes exactly the head, keeps the rest of the queue, logs the head's started/finished entries, fires the head's event on its receiver only, reaches the same state as `processNextMessage`, and returns true unless the body throws, in which case it raises the body's own error |
| Actors.ProcessMessages | jumi-actors/src/main/java/fi/jumi/actors/Actors.java:56-74 | Processing n messages runs the first n tasks in enqueue order: the queue loses exactly that prefix, the trace gains their started/finished entries in order, each receiver gets its own events in queue order, and the flag is set iff a death pill was among them |
| Actors.ProcessPreservesInvariants | jumi-actors/src/main/java/fi/jumi/actors/Actors.java:104-112 | Running the head task, even one whose body throws, keeps started/finished entries paired and unnested, loses no sent message, and keeps receivers in step with the trace |
| Actors.SendPreservesInvariants | jumi-actors/src/main/java/fi/jumi/actors/Actors.java:87-91 | A send keeps the invariants: the message is logged as sent and counts as pending |
| Actors.StopPreservesInvariants | jumi-actors/src/main/java/fi/jumi/actors/Actors.java:46-54 | The death pill carries no message, so stopping keeps the invariants |
| Actors.ReachableInvariants | jumi-actors/src/main/java/fi/jumi/actors/Actors.java:37-121 | From any state satisfying the invariants, every sequence of sends, stops and polls keeps them: started/finished entries are paired 1:1 and never nested, every sent event is processed or still queued in send order, and each receiver saw exactly the events processed on it |
| Actors.SendThenProcessFiresOnBoundReceiver | jumi-actors/src/main/java/fi/jumi/actors/Actors.java:39-44 | An event sent through the reference bound to a raw actor, behind any tasks already queued, is fired on that receiver once those tasks and its own have run: each receiver gets the queued deliveries addressed to it, the bound receiver then also gets the event, and no other receiver gets it. The trace reads sent, the queued tasks' entries, then started and finished for the event, and the queue ends empty |
| Actors.DrainBeforeStop | jumi-actors/src/main/java/fi/jumi/actors/Actors.java:46-54 | After `stop` and further tasks, the flag stays clear while the tasks queued before `stop` run and all their events are fired; the next task is the pill, which sets the flag and leaves exactly the later tasks queued |
| Actors.GreeterScenario | jumi-actors/src/main/java/fi/jumi/actors/Actors.java:87-112 | Two greetings sent to one bound greeter are observed by it in send order |
| TextUI.AddTestName | jumi-launcher/src/main/java/fi/jumi/launcher/ui/TextUI.java:40-42 | The name is stored under (class, id), and every other stored name is kept |
| TextUI.AddRunEvent | jumi-launcher/src/main/java/fi/jumi/launcher/ui/TextUI.java:50-57 | The event is appended to its own run's log, which is created when absent; every other run's log is unchanged |
| TextUI.EvaluateStatusCounts | jumi-launcher/src/main/java/fi/jumi/launcher/ui/TextUI.java:184-203 | The status evaluator's counter equals its start value plus the number of starts minus the number of finishes; failures do not move it |
| TextUI.RunFinishedIff | jumi-launcher/src/main/java/fi/jumi/launcher/ui/TextUI.java:59-68 | A run is finished iff its log has as many test-started as test-finished events |
| TextUI.Indent | jumi-launcher/src/main/java/fi/jumi/launcher/ui/TextUI.java:175-181 | The indentation is exactly two spaces per running test, and empty for a count of zero or less |
| TextUI.TestNameIndent | jumi-launcher/src/main/java/fi/jumi/launcher/ui/TextUI.java:175-181 | The loop that appends two spaces per running test builds exactly that indentation |
| TextUI.PrinterStep | jumi-launcher/src/main/java/fi/jumi/launcher/ui/TextUI.java:148-173 | The printer counts running tests as the status evaluator does. A start prints the run header exactly when the counter is 0, then a `+` line indented by the count before the increment. A finish prints a `-` line indented by the count after the decrement. A failure prints only its stack trace to `err` |
| TextUI.PrintEvents | jumi-launcher/src/main/java/fi/jumi/launcher/ui/TextUI.java:70-77 | Printing a run's log only appends output, ends with the same counter as the status evaluator, prints at least one line per start and per finish, and prints one `err` line per failure |
| TextUI.MatchingLinesShareIndent | jumi-launcher/src/main/java/fi/jumi/launcher/ui/TextUI.java:148-159 | The `+` line of a start and the `-` line of the finish that brings the counter back have the same indentation |
| TextUI.OnSuiteFinished | jumi-launcher/src/main/java/fi/jumi/launcher/ui/TextUI.java:102-112 | Prints a blank line and the summary of distinct failed and distinct started tests, and marks the suite finished; names, run logs and counts are unchanged |
| TextUI.OnTestFound | jumi-launcher/src/main/java/fi/jumi/launcher/ui/TextUI.java:114-117 | Stores the test's name under (class, id) and changes nothing else |
| TextUI.OnTestStarted | jumi-launcher/src/main/java/fi/jumi/launcher/ui/TextUI.java:119-124 | Appends the start to its run's log, leaves other runs alone, and adds (class, id) once to the started set |
| TextUI.OnFailure | jumi-launcher/src/main/java/fi/jumi/launcher/ui/TextUI.java:136-141 | Appends the failure to its run's log, leaves other runs alone, and adds (class, id) once to the failed set |
| TextUI.OnTestFinished | jumi-launcher/src/main/java/fi/jumi/launcher/ui/TextUI.java:126-134 | Appends the finish to its run's log; output changes iff the run is finished after the append, and then it is the run's whole log printed; otherwise nothing is printed |
| TextUI.Fire | jumi-launcher/src/main/java/fi/jumi/launcher/ui/TextUI.java:98-141 | Dispatching one stream event marks the suite finished iff it is the suite-finished event, adds only that event's test to the started or failed set, and only appends output. A found test's name is stored under (class, id). A start, finish or failure is appended to the log of its own run and of no other. A finish that completes its run prints that run's whole log. No other event prints anything |
| TextUI.Update | jumi-launcher/src/main/java/fi/jumi/launcher/ui/TextUI.java:79-87 | `update` consumes a prefix of the stream and stops only at its end or at the suite-finished event, which is then the last consumed; the sets grow by exactly the consumed starts and failures; each run's log grows by exactly that run's consumed starts, finishes and failures, in stream order; the summary is printed last |
| TextUI.UpdateUntilFinished | jumi-launcher/src/main/java/fi/jumi/launcher/ui/TextUI.java:89-94 | On a stream that finishes the suite, `updateUntilFinished` ends finished and agrees with `update` |
| TextUI.SummaryCountsDistinctTests | jumi-launcher/src/main/java/fi/jumi/launcher/ui/TextUI.java:103-109 | From a state with nothing counted, the last line printed is the summary: fail and total are the numbers of distinct (class, id) failed and started in the consumed stream, and pass is their difference |
| TextUI.FailedAreStarted | jumi-launcher/src/main/java/fi/jumi/launcher/ui/TextUI.java:119-141 | The failed set is filled whether or not the test started, so a failure counts as started only when the stream started that test earlier; on such a stream the failed ids are a subset of the started ids |
| TextUI.PassCountIsStartedButNotFailed | jumi-launcher/src/main/java/fi/jumi/launcher/ui/TextUI.java:103-109 | From a state with nothing counted, on a stream that starts every test before failing it, the printed pass count is the number of distinct tests that started and never failed, so it is not negative |

## Left out

- Actors.RunTask: an actor body is a fixed function of (receiver, event) that returns or throws. Two limits follow. An actor with state of its own that throws on one call and not on an equal later call is not modelled. A body that sends through a reference bound on the same thread is not modelled either: in the source (Actors.java:88-90, 108) such a send logs `onMessageSent` between started and finished and grows the queue during the run.
- Actors.ProcessMessages: its statement that the queue ends as the unprocessed suffix, and `Actors.DrainBeforeStop`'s statement that exactly the later tasks stay queued, hold only for bodies that do not send. A body that sends would also leave its own messages queued behind them. Modelling sends from inside a body would make the body return the messages it sends.
- Threads, the blocking of `take()` and `Thread.interrupt()`. Interruption is a boolean flag, and `take` is modelled as requiring a non-empty queue. The real code exists to make this concurrent, and the verifier cannot check concurrency.
- The eventizer lookup, proxy generation and `type.cast` in `bindActor`. They are generated code and reflection outside the model. An event is a datatype value, and firing it appends the value to the receiver's list.
- `startActorThread` and the execution strategy that drives `processNextMessage`. `Actors.ProcessMessages` is one such worker loop: it carries on after a body throws. The source leaves that policy to the caller.
- `execute` of arbitrary `Runnable`s. Only the two kinds of task the class itself creates are modelled. The lossless-delivery invariant is stated for states reached through sends, stops and polls. A delivery task executed directly would bypass the logger, which the source prevents by keeping that task class private.
- Actors.ReachableInvariants: in the source, one message logger belongs to the `Actors` facade and is shared by every actor thread it starts (Actors.java:18-29). `ActorThread.log` is the part of that trace written by this thread's senders and tasks. A new thread starts with that part empty. The pairing and non-nesting of started/finished entries is claimed for that part only. With several actor threads running, their entries interleave in the shared trace.
- TextUI.Update: its contract states the consumed events' effect on the counts, on the run logs and on the summary. It does not state the test names stored or the runs printed along the way as a function of the whole consumed stream. Those effects are stated per event by `TextUI.Fire`, which `Update` applies to each consumed event in turn.
- A message logger that throws. The logger is an append-only trace that always succeeds.
- The text formatting of printed lines, `Throwable.printStackTrace` and the interleaving of `out` with `err`. Lines are abstract values on two separate streams.
- The run id inside stored run events. The log is keyed by run id, and the header takes the id from that key.
- Java `int` overflow of the counters and of the summary counts. Counts are unbounded integers.
- `InterruptedException` from `updateUntilFinished`. That function requires a stream that eventually finishes the suite.
- `JumiLauncher`, `JumiLauncherHandler` and `LibrarySourceLocator`. They are process spawning, network I/O and class-path lookup.

=== FILE: actors.dfy ===
/**
  A model of the actor thread of the Jumi actor library: one FIFO task queue
  consumed by a single worker, a message logger that records what is sent and
  processed, and recording receivers that remember every event fired on them.

  Threads, blocking and `Thread.interrupt()` are not modelled: interruption is
  a flag, `take` requires a non-empty queue, and the actor bodies are a
  parameter that says, per receiver and event, whether the body returns or
  throws.
 */
module Actors {

  /** Identity of a raw actor object bound to the actor thread. */
  type ActorId = nat

  /** An immutable captured method call on an actor interface. */
  datatype Event = Event(name: string, args: seq<string>)

  /** What an actor's method body does when an event is fired on it. */
  datatype Outcome = Ok | Throws(error: string)

  /** The behaviour of the actor bodies, which is code outside the model. A
      body here keeps no state between calls and sends no messages itself. */
  type Body = (ActorId, Event) -> Outcome

  /** A queued task: a message for a bound actor, or the death pill of `stop`. */
  datatype Task = Deliver(actor: ActorId, event: Event) | DeathPill

  /** The three call sites of the message logger. */
  datatype LogEntry =
    | MessageSent(event: Event)
    | ProcessingStarted(actor: ActorId, event: Event)
    | ProcessingFinished

  /** The handle `bindActor` returns: its sender delivers to one raw actor. */
  datatype ActorRef = ActorRef(actor: ActorId)

  /** The state of one actor thread together with what can be observed of it:
      the task queue, the events each receiver has had fired on it, the
      part of the shared logger's trace that this thread's senders and tasks
      write, and the interrupt flag of the hosting worker. */
  datatype ActorThread = ActorThread(
    queue: seq<Task>,
    fired: map<ActorId, seq<Event>>,
    log: seq<LogEntry>,
    interrupted: bool)

  /** The state after `processNextMessage`, and whether the task threw. */
  datatype Processed = Processed(thread: ActorThread, outcome: Outcome)

  /** What `processNextMessageIfAny` does: return a boolean or throw. */
  datatype PollResult = Returned(processed: bool) | Raised(error: string)

  datatype Polled = Polled(thread: ActorThread, result: PollResult)

  // ---------------------------------------------------------------------
  // Observations

  /** The events fired so far on receiver `a`. */
  function FiredOn(t: ActorThread, a: ActorId): seq<Event> {
    if a in t.fired then t.fired[a] else []
  }

  /** Events of the delivery tasks in `tasks`, in queue order. */
  function Deliveries(tasks: seq<Task>): seq<Event> {
    if tasks == [] then []
    else (if tasks[0].Deliver? then [tasks[0].event] else []) + Deliveries(tasks[1..])
  }

  /** Events of the delivery tasks in `tasks` addressed to receiver `a`. */
  function DeliveriesTo(tasks: seq<Task>, a: ActorId): seq<Event> {
    if tasks == [] then []
    else (if tasks[0].Deliver? && tasks[0].actor == a then [tasks[0].event] else [])
         + DeliveriesTo(tasks[1..], a)
  }

  /** The logger entries that running `tasks` one after another records. */
  function ProcessingLog(tasks: seq<Task>): seq<LogEntry> {
    if tasks == [] then []
    else (if tasks[0].Deliver?
          then [ProcessingStarted(tasks[0].actor, tasks[0].event), ProcessingFinished]
          else [])
         + ProcessingLog(tasks[1..])
  }

  /** Events recorded by `onMessageSent`, in log order. */
  function SentEvents(log: seq<LogEntry>): seq<Event> {
    if log == [] then []
    else
      var last := log[|log| - 1];
      SentEvents(log[..|log| - 1]) + (if last.MessageSent? then [last.event] else [])
  }

  /** Events recorded by `onProcessingStarted`, in log order. */
  function StartedEvents(log: seq<LogEntry>): seq<Event> {
    if log == [] then []
    else
      var last := log[|log| - 1];
      StartedEvents(log[..|log| - 1]) + (if last.ProcessingStarted? then [last.event] else [])
  }

  /** Events recorded by `onProcessingStarted` for receiver `a`. */
  function StartedOn(log: seq<LogEntry>, a: ActorId): seq<Event> {
    if log == [] then []
    else
      var last := log[|log| - 1];
      StartedOn(log[..|log| - 1], a)
      + (if last.ProcessingStarted? && last.actor == a then [last.event] else [])
  }

  /** The started (true) / finished (false) entries of the log, in order. */
  function Brackets(log: seq<LogEntry>): seq<bool> {
    if log == [] then []
    else
      var last := log[|log| - 1];
      Brackets(log[..|log| - 1])
      + (if last.ProcessingStarted? then [true] else if last.ProcessingFinished? then [false] else [])
  }

  // ---------------------------------------------------------------------
  // Invariants

  /** Started and finished entries alternate, starting with a start and with
      nothing left open: they pair up 1:1 and never nest. */
  predicate Bracketed(log: seq<LogEntry>) {
    var b := Brackets(log);
    |b| % 2 == 0 && forall i :: 0 <= i < |b| ==> b[i] == (i % 2 == 0)
  }

  /** No message is lost or duplicated: every sent event has either been
      processed or is still queued, and in send order. */
  predicate Lossless(t: ActorThread) {
    SentEvents(t.log) == StartedEvents(t.log) + Deliveries(t.queue)
  }

  /** Each receiver has had fired on it exactly the events the logger saw
      start processing on it. */
  ghost predicate ReceiversMatchLog(t: ActorThread) {
    forall a :: FiredOn(t, a) == StartedOn(t.log, a)
  }

  ghost predicate Invariants(t: ActorThread) {
    Bracketed(t.log) && Lossless(t) && ReceiversMatchLog(t)
  }

  // ---------------------------------------------------------------------
  // Operations

  /** A freshly started actor thread. */
  function NewActorThread(): (t: ActorThread)
    ensures t.queue == [] && t.log == [] && !t.interrupted
    ensures forall a :: FiredOn(t, a) == []
    ensures Invariants(t)
  {
    ActorThread([], map[], [], false)
  }

  /** `bindActor`: the returned reference sends to this raw actor. */
  function BindActor(rawActor: ActorId): ActorRef {
    ActorRef(rawActor)
  }

  /** `execute`: append a task at the tail. There is no rejection state, so
      this succeeds even after the thread was stopped or interrupted. */
  function Execute(t: ActorThread, task: Task): (r: ActorThread)
    ensures r.queue == t.queue + [task]
    ensures r.fired == t.fired && r.log == t.log && r.interrupted == t.interrupted
  {
    t.(queue := t.queue + [task])
  }

  /** `stop`: enqueue the death pill behind everything already queued. */
  function Stop(t: ActorThread): (r: ActorThread)
    ensures r.queue == t.queue + [DeathPill]
    ensures r.fired == t.fired && r.log == t.log && r.interrupted == t.interrupted
  {
    Execute(t, DeathPill)
  }

  /** The sender of a bound reference: log the message, then enqueue it. */
  function Send(t: ActorThread, ref: ActorRef, event: Event): (r: ActorThread)
    ensures r.log == t.log + [MessageSent(event)]
    ensures r.queue == t.queue + [Deliver(ref.actor, event)]
    ensures r.fired == t.fired && r.interrupted == t.interrupted
  {
    var logged := t.(log := t.log + [MessageSent(event)]);
    Execute(logged, Deliver(ref.actor, event))
  }

  /** `run` of a task taken off the queue. A delivery logs the start, fires
      the event on its receiver, and logs the finish whether or not the body
      throws; the death pill sets the interrupt flag. */
  function RunTask(t: ActorThread, task: Task, body: Body): (r: Processed)
    ensures r.thread.queue == t.queue
    ensures task.Deliver? ==>
      && r.thread.log == t.log + [ProcessingStarted(task.actor, task.event), ProcessingFinished]
      && r.outcome == body(task.actor, task.event)
      && r.thread.interrupted == t.interrupted
      && FiredOn(r.thread, task.actor) == FiredOn(t, task.actor) + [task.event]
      && (forall a :: a != task.actor ==> FiredOn(r.thread, a) == FiredOn(t, a))
    ensures task.DeathPill? ==>
      r == Processed(t.(interrupted := true), Ok)
  {
    match task
    case DeathPill =>
      Processed(t.(interrupted := true), Ok)
    case Deliver(a, e) =>
      var started := t.(log := t.log + [ProcessingStarted(a, e)]);
      var outcome := body(a, e);
      var fired := started.(fired := started.fired[a := FiredOn(t, a) + [e]]);
      Processed(fired.(log := fired.log + [ProcessingFinished]), outcome)
  }

  /** `processNextMessage`: take the head task and run it. An exception of the
      actor body is not caught; the task has been removed all the same. */
  function ProcessNextMessage(t: ActorThread, body: Body): (r: Processed)
    requires |t.queue| > 0
    ensures r.thread.queue == t.queue[1..]
    ensures r.outcome.Throws? <==>
      t.queue[0].Deliver? && body(t.queue[0].actor, t.queue[0].event).Throws?
    ensures r.outcome.Throws? ==> r.outcome == body(t.queue[0].actor, t.queue[0].event)
    ensures r.thread.log == t.log + ProcessingLog([t.queue[0]])
    ensures forall a :: FiredOn(r.thread, a) == FiredOn(t, a) + DeliveriesTo([t.queue[0]], a)
    ensures r.thread.interrupted <==> t.interrupted || t.queue[0] == DeathPill
    ensures Invariants(t) ==> Invariants(r.thread)
  {
    var r := RunTask(t.(queue := t.queue[1..]), t.queue[0], body);
    ProcessPreservesInvariants(t, body, r);
    r
  }

  /** `processNextMessageIfAny`: a no-op answering false on an empty queue;
      otherwise the head task is removed and run, and true is returned unless
      the body throws. */
  function ProcessNextMessageIfAny(t: ActorThread, body: Body): (r: Polled)
    ensures t.queue == [] ==> r == Polled(t, Returned(false))
    ensures t.queue != [] ==>
      && r.thread.queue == t.queue[1..]
      && (r.result.Raised? <==>
            t.queue[0].Deliver? && body(t.queue[0].actor, t.queue[0].event).Throws?)
      && (r.result.Returned? ==> r.result.processed)
      && (r.result.Raised? ==> r.result.error == body(t.queue[0].actor, t.queue[0].event).error)
      && r.thread.log == t.log + ProcessingLog([t.queue[0]])
      && (forall a :: FiredOn(r.thread, a) == FiredOn(t, a) + DeliveriesTo([t.queue[0]], a))
    ensures t.queue != [] ==> r.thread == ProcessNextMessage(t, body).thread
    ensures Invariants(t) ==> Invariants(r.thread)
  {
    if t.queue == [] then Polled(t, Returned(false))
    else
      var p := ProcessNextMessage(t, body);
      match p.outcome
      case Ok => Polled(p.thread, Returned(true))
      case Throws(e) => Polled(p.thread, Raised(e))
  }

  /** A worker loop that processes `n` messages and carries on after an actor
      body throws (one possible policy of the external worker). */
  function ProcessMessages(t: ActorThread, body: Body, n: nat): (r: ActorThread)
    requires n <= |t.queue|
    ensures r.queue == t.queue[n..]
    ensures r.log == t.log + ProcessingLog(t.queue[..n])
    ensures forall a :: FiredOn(r, a) == FiredOn(t, a) + DeliveriesTo(t.queue[..n], a)
    ensures r.interrupted <==> t.interrupted || DeathPill in t.queue[..n]
    decreases n
  {
    if n == 0 then
      assert t.queue[..0] == [];
      t
    else
      var p := ProcessNextMessage(t, body).thread;
      var r := ProcessMessages(p, body, n - 1);
      ProcessedHeadThenRest(t, p, r, n);
      r
  }

  /** `execute` applied to each task in turn. */
  function ExecuteAll(t: ActorThread, tasks: seq<Task>): (r: ActorThread)
    ensures r.queue == t.queue + tasks
    ensures r.fired == t.fired && r.log == t.log && r.interrupted == t.interrupted
    decreases |tasks|
  {
    if tasks == [] then t
    else
      var r := ExecuteAll(Execute(t, tasks[0]), tasks[1..]);
      assert t.queue + tasks == t.queue + [tasks[0]] + tasks[1..];
      r
  }

  /** The calls a client can make on one actor thread. */
  datatype Op = SendOp(ref: ActorRef, event: Event) | StopOp | PollOp

  /** Apply calls in order; an exception raised by a poll is left to the
      caller and does not stop the run. */
  function Apply(t: ActorThread, ops: seq<Op>, body: Body): ActorThread
    decreases |ops|
  {
    if ops == [] then t
    else
      var next := match ops[0]
        case SendOp(ref, e) => Send(t, ref, e)
        case StopOp => Stop(t)
        case PollOp => ProcessNextMessageIfAny(t, body).thread;
      Apply(next, ops[1..], body)
  }

  // ---------------------------------------------------------------------
  // Lemmas

  lemma {:induction false} DeliveriesAppend(a: seq<Task>, b: seq<Task>)
    ensures Deliveries(a + b) == Deliveries(a) + Deliveries(b)
    decreases |a|
  {
    if a == [] {
      assert a + b == b;
    } else {
      var head := if a[0].Deliver? then [a[0].event] else [];
      assert (a + b)[0] == a[0] && (a + b)[1..] == a[1..] + b;
      assert Deliveries(a + b) == head + Deliveries(a[1..] + b);
      DeliveriesAppend(a[1..], b);
      assert Deliveries(a) == head + Deliveries(a[1..]);
    }
  }

  /** Splitting the first `n` tasks of a queue into its head and the rest. */
  lemma PrefixUnfolds(q: seq<Task>, n: nat)
    requires 0 < n <= |q|
    ensures q[..n] == [q[0]] + q[1..][..n - 1]
    ensures q[n..] == q[1..][n - 1..]
    ensures ProcessingLog(q[..n]) == ProcessingLog([q[0]]) + ProcessingLog(q[1..][..n - 1])
    ensures DeathPill in q[..n] <==> q[0] == DeathPill || DeathPill in q[1..][..n - 1]
  {
    assert q[..n] == [q[0]] + q[1..][..n - 1];
    assert q[..n][1..] == q[1..][..n - 1];
    assert [q[0]][1..] == [];
  }

  /** The same split, seen by one receiver. */
  lemma PrefixUnfoldsOn(q: seq<Task>, n: nat, a: ActorId)
    requires 0 < n <= |q|
    ensures DeliveriesTo(q[..n], a) == DeliveriesTo([q[0]], a) + DeliveriesTo(q[1..][..n - 1], a)
  {
    assert q[..n][1..] == q[1..][..n - 1];
    assert [q[0]][1..] == [];
  }

  /** Processing the head task and then `n - 1` more is processing `n`. */
  lemma ProcessedHeadThenRest(t: ActorThread, p: ActorThread, r: ActorThread, n: nat)
    requires 0 < n <= |t.queue|
    requires p.queue == t.queue[1..]
    requires p.log == t.log + ProcessingLog([t.queue[0]])
    requires forall a :: FiredOn(p, a) == FiredOn(t, a) + DeliveriesTo([t.queue[0]], a)
    requires p.interrupted <==> t.interrupted || t.queue[0] == DeathPill
    requires r.queue == p.queue[n - 1..]
    requires r.log == p.log + ProcessingLog(p.queue[..n - 1])
    requires forall a :: FiredOn(r, a) == FiredOn(p, a) + DeliveriesTo(p.queue[..n - 1], a)
    requires r.interrupted <==> p.interrupted || DeathPill in p.queue[..n - 1]
    ensures r.queue == t.queue[n..]
    ensures r.log == t.log + ProcessingLog(t.queue[..n])
    ensures forall a :: FiredOn(r, a) == FiredOn(t, a) + DeliveriesTo(t.queue[..n], a)
    ensures r.interrupted <==> t.interrupted || DeathPill in t.queue[..n]
  {
    PrefixUnfolds(t.queue, n);
    forall a
      ensures FiredOn(r, a) == FiredOn(t, a) + DeliveriesTo(t.queue[..n], a)
    {
      PrefixUnfoldsOn(t.queue, n, a);
    }
  }

  /** Running the head task keeps all three invariants, whatever the body does. */
  lemma ProcessPreservesInvariants(t: ActorThread, body: Body, r: Processed)
    requires |t.queue| > 0
    requires r == RunTask(t.(queue := t.queue[1..]), t.queue[0], body)
    ensures Invariants(t) ==> Invariants(r.thread)
  {
    if Invariants(t) {
      assert t.queue == [t.queue[0]] + t.queue[1..];
      match t.queue[0]
      case DeathPill =>
        assert Deliveries(t.queue) == Deliveries(t.queue[1..]);
      case Deliver(a, e) =>
        DeliveryKeepsInvariants(t, a, e, r.thread);
    }
  }

  /** The state after running a head delivery keeps the invariants. */
  lemma DeliveryKeepsInvariants(t: ActorThread, a: ActorId, e: Event, u: ActorThread)
    requires Invariants(t)
    requires |t.queue| > 0 && t.queue[0] == Deliver(a, e)
    requires u.queue == t.queue[1..]
    requires u.log == t.log + [ProcessingStarted(a, e), ProcessingFinished]
    requires FiredOn(u, a) == FiredOn(t, a) + [e]
    requires forall b :: b != a ==> FiredOn(u, b) == FiredOn(t, b)
    ensures Invariants(u)
  {
    LogGainsDelivery(t.log, a, e);
    assert t.queue == [t.queue[0]] + t.queue[1..];
    assert Deliveries(t.queue) == [e] + Deliveries(t.queue[1..]);
    forall b
      ensures FiredOn(u, b) == StartedOn(u.log, b)
    {
      LogGainsDeliveryOn(t.log, a, e, b);
    }
  }

  /** What logging the started/finished pair of one delivery adds to the
      log's observations. */
  lemma LogGainsDelivery(log: seq<LogEntry>, a: ActorId, e: Event)
    ensures Bracketed(log) ==> Bracketed(log + [ProcessingStarted(a, e), ProcessingFinished])
    ensures SentEvents(log + [ProcessingStarted(a, e), ProcessingFinished]) == SentEvents(log)
    ensures StartedEvents(log + [ProcessingStarted(a, e), ProcessingFinished]) == StartedEvents(log) + [e]
  {
    var mid := log + [ProcessingStarted(a, e)];
    var log' := mid + [ProcessingFinished];
    assert log + [ProcessingStarted(a, e), ProcessingFinished] == log';
    assert log'[..|log'| - 1] == mid;
    assert mid[..|mid| - 1] == log;
    assert Brackets(log') == Brackets(log) + [true, false];
  }

  /** The same pair, seen by one receiver. */
  lemma LogGainsDeliveryOn(log: seq<LogEntry>, a: ActorId, e: Event, b: ActorId)
    ensures StartedOn(log + [ProcessingStarted(a, e), ProcessingFinished], b)
         == StartedOn(log, b) + (if b == a then [e] else [])
  {
    var mid := log + [ProcessingStarted(a, e)];
    var log' := mid + [ProcessingFinished];
    assert log + [ProcessingStarted(a, e), ProcessingFinished] == log';
    assert log'[..|log'| - 1] == mid;
    assert mid[..|mid| - 1] == log;
  }

  /** Sending keeps the invariants: the message is logged as sent and is
      queued, so it counts as pending. */
  lemma SendPreservesInvariants(t: ActorThread, ref: ActorRef, e: Event)
    requires Invariants(t)
    ensures Invariants(Send(t, ref, e))
  {
    var r := Send(t, ref, e);
    assert r.log[..|r.log| - 1] == t.log;
    DeliveriesAppend(t.queue, [Deliver(ref.actor, e)]);
    assert Deliveries([Deliver(ref.actor, e)]) == [e];
    forall b
      ensures FiredOn(r, b) == StartedOn(r.log, b)
    {
      assert StartedOn(r.log, b) == StartedOn(t.log, b);
    }
  }

  /** Stopping keeps the invariants: the death pill carries no message. */
  lemma StopPreservesInvariants(t: ActorThread)
    requires Invariants(t)
    ensures Invariants(Stop(t))
  {
    DeliveriesAppend(t.queue, [DeathPill]);
    assert Deliveries([DeathPill]) == [];
  }

  /** Every state a client can reach from a fresh actor thread has paired,
      non-nested processing entries in its log, loses no sent message, and
      shows each receiver exactly the events processed on it. */
  lemma {:induction false} ReachableInvariants(t: ActorThread, ops: seq<Op>, body: Body)
    requires Invariants(t)
    ensures Invariants(Apply(t, ops, body))
    decreases |ops|
  {
    if ops != [] {
      var next := match ops[0]
        case SendOp(ref, e) => Send(t, ref, e)
        case StopOp => Stop(t)
        case PollOp => ProcessNextMessageIfAny(t, body).thread;
      match ops[0] {
        case SendOp(ref, e) => SendPreservesInvariants(t, ref, e);
        case StopOp => StopPreservesInvariants(t);
        case PollOp =>
      }
      ReachableInvariants(next, ops[1..], body);
    }
  }

  lemma {:induction false} DeliveriesToAppend(a: seq<Task>, b: seq<Task>, x: ActorId)
    ensures DeliveriesTo(a + b, x) == DeliveriesTo(a, x) + DeliveriesTo(b, x)
    decreases |a|
  {
    if a == [] {
      assert a + b == b;
    } else {
      var head := if a[0].Deliver? && a[0].actor == x then [a[0].event] else [];
      assert (a + b)[0] == a[0] && (a + b)[1..] == a[1..] + b;
      assert DeliveriesTo(a + b, x) == head + DeliveriesTo(a[1..] + b, x);
      DeliveriesToAppend(a[1..], b, x);
      assert DeliveriesTo(a, x) == head + DeliveriesTo(a[1..], x);
    }
  }

  lemma {:induction false} ProcessingLogAppend(a: seq<Task>, b: seq<Task>)
    ensures ProcessingLog(a + b) == ProcessingLog(a) + ProcessingLog(b)
    decreases |a|
  {
    if a == [] {
      assert a + b == b;
    } else {
      var head := if a[0].Deliver?
                  then [ProcessingStarted(a[0].actor, a[0].event), ProcessingFinished]
                  else [];
      assert (a + b)[0] == a[0] && (a + b)[1..] == a[1..] + b;
      assert ProcessingLog(a + b) == head + ProcessingLog(a[1..] + b);
      ProcessingLogAppend(a[1..], b);
      assert ProcessingLog(a) == head + ProcessingLog(a[1..]);
    }
  }

  /** A message sent through a reference bound to `rawActor`, behind whatever
      tasks are already queued, is fired on that receiver, and only on it,
      once the tasks ahead of it and its own task have been processed. */
  lemma SendThenProcessFiresOnBoundReceiver(
    t: ActorThread, rawActor: ActorId, e: Event, body: Body)
    ensures var s := Send(t, BindActor(rawActor), e);
            var p := ProcessMessages(s, body, |t.queue| + 1);
            && FiredOn(p, rawActor) == FiredOn(t, rawActor) + DeliveriesTo(t.queue, rawActor) + [e]
            && (forall a :: a != rawActor ==> FiredOn(p, a) == FiredOn(t, a) + DeliveriesTo(t.queue, a))
            && p.log == t.log + [MessageSent(e)] + ProcessingLog(t.queue)
                        + [ProcessingStarted(rawActor, e), ProcessingFinished]
            && p.queue == []
  {
    var s := Send(t, BindActor(rawActor), e);
    var p := ProcessMessages(s, body, |t.queue| + 1);
    assert s.queue[..|t.queue| + 1] == t.queue + [Deliver(rawActor, e)];
    SentBehindQueue(t, rawActor, e, s.queue[..|t.queue| + 1], p);
  }

  /** Reading off, per receiver, what processing `t.queue` and then the sent
      delivery adds. */
  lemma SentBehindQueue(t: ActorThread, rawActor: ActorId, e: Event, q: seq<Task>, p: ActorThread)
    requires q == t.queue + [Deliver(rawActor, e)]
    requires p.log == t.log + [MessageSent(e)] + ProcessingLog(q)
    requires forall a :: FiredOn(p, a) == FiredOn(t, a) + DeliveriesTo(q, a)
    ensures FiredOn(p, rawActor) == FiredOn(t, rawActor) + DeliveriesTo(t.queue, rawActor) + [e]
    ensures forall a :: a != rawActor ==> FiredOn(p, a) == FiredOn(t, a) + DeliveriesTo(t.queue, a)
    ensures p.log == t.log + [MessageSent(e)] + ProcessingLog(t.queue)
                     + [ProcessingStarted(rawActor, e), ProcessingFinished]
  {
    LogBehindQueue(t.queue, rawActor, e);
    forall a
      ensures FiredOn(p, a) == FiredOn(t, a) + DeliveriesTo(t.queue, a) + (if a == rawActor then [e] else [])
    {
      DeliveryBehindQueue(t.queue, rawActor, e, a);
      assert FiredOn(p, a) == FiredOn(t, a) + DeliveriesTo(q, a);
    }
  }

  /** Processing a delivery behind a queue logs its pair after the queue's. */
  lemma LogBehindQueue(queue: seq<Task>, rawActor: ActorId, e: Event)
    ensures ProcessingLog(queue + [Deliver(rawActor, e)])
         == ProcessingLog(queue) + [ProcessingStarted(rawActor, e), ProcessingFinished]
  {
    var task := Deliver(rawActor, e);
    ProcessingLogAppend(queue, [task]);
    assert [task][1..] == [];
  }

  /** A delivery behind a queue reaches its own receiver after the queue's. */
  lemma DeliveryBehindQueue(queue: seq<Task>, rawActor: ActorId, e: Event, a: ActorId)
    ensures DeliveriesTo(queue + [Deliver(rawActor, e)], a)
         == DeliveriesTo(queue, a) + (if a == rawActor then [e] else [])
  {
    var task := Deliver(rawActor, e);
    DeliveriesToAppend(queue, [task], a);
    assert [task][1..] == [];
  }

  /** Drain before stop: tasks queued before `stop` all run before the
      interrupt flag is set; the death pill then sets it and leaves every task
      queued after `stop` unprocessed, in order. */
  lemma DrainBeforeStop(t: ActorThread, later: seq<Task>, body: Body)
    requires DeathPill !in t.queue
    requires !t.interrupted
    ensures var s := ExecuteAll(Stop(t), later);
            var n := |t.queue|;
            && (forall k :: 0 <= k <= n ==> !ProcessMessages(s, body, k).interrupted)
            && (forall a :: FiredOn(ProcessMessages(s, body, n), a) == FiredOn(t, a) + DeliveriesTo(t.queue, a))
            && ProcessMessages(s, body, n + 1).interrupted
            && ProcessMessages(s, body, n + 1).queue == later
  {
    var s := ExecuteAll(Stop(t), later);
    var n := |t.queue|;
    assert s.queue == t.queue + [DeathPill] + later;
    assert s.queue[..n] == t.queue;
    assert s.queue[..n + 1] == t.queue + [DeathPill];
    assert s.queue[n + 1..] == later;
    forall k | 0 <= k <= n
      ensures !ProcessMessages(s, body, k).interrupted
    {
      assert s.queue[..k] == t.queue[..k];
    }
  }

  /** The scenario of a greeter bound on one thread: two greetings sent in
      order are observed by the receiver in that order. */
  lemma GreeterScenario(body: Body)
    ensures var greeter := BindActor(0);
            var t := Send(Send(NewActorThread(), greeter, Event("greet", ["Ann"])),
                          greeter, Event("greet", ["Bo"]));
            FiredOn(ProcessMessages(t, body, 2), 0) == [Event("greet", ["Ann"]), Event("greet", ["Bo"])]
  {

  }
}

=== FILE: text_ui.dfy ===
/**
  A model of the Jumi text user interface: it folds a stream of suite
  listener events into the names of the tests, a per-run event log and the
  sets of started and failed tests, prints each run once it has finished, and
  prints a pass/fail/total summary when the suite finishes.

  Output streams are sequences of abstract lines; `out` and `err` are kept
  apart. The event stream is a finite sequence that `update` polls.
 */
module TextUI {

  /** The number of a run, as printed in the run header. */
  type RunId = nat

  /** The position of a test within its test class. */
  type TestId = seq<nat>

  /** A test identified across the whole suite. */
  datatype GlobalTestId = GlobalTestId(testClass: string, id: TestId)

  /** The suite listener calls that arrive through the event stream. */
  datatype SuiteEvent =
    | SuiteStarted
    | SuiteFinished
    | TestFound(testClass: string, id: TestId, name: string)
    | TestStarted(run: RunId, testClass: string, id: TestId)
    | TestFinished(run: RunId, testClass: string, id: TestId)
    | Failure(run: RunId, testClass: string, id: TestId, cause: string)

  /** An event kept in the log of one run (the run is the log's key). */
  datatype RunEvent =
    | Started(testClass: string, id: TestId)
    | Finished(testClass: string, id: TestId)
    | Failed(testClass: string, id: TestId, cause: string)

  datatype Bullet = Plus | Minus

  /** A printed line. `StackTrace` lines go to `err`, all others to `out`. */
  datatype Line =
    | Blank
    | Summary(pass: int, fail: nat, total: nat)
    | RunHeader(run: RunId, testClass: string)
    | TestLine(indent: string, bullet: Bullet, name: string)
    | StackTrace(cause: string)

  datatype Console = Console(out: seq<Line>, err: seq<Line>)

  type Names = map<GlobalTestId, string>
  type Runs = map<RunId, seq<RunEvent>>

  /** The state of the text UI together with what it has printed. */
  datatype UI = UI(
    names: Names,
    runs: Runs,
    failed: set<GlobalTestId>,
    total: set<GlobalTestId>,
    suiteFinished: bool,
    console: Console)

  function Gid(ev: RunEvent): GlobalTestId {
    GlobalTestId(ev.testClass, ev.id)
  }

  // ---------------------------------------------------------------------
  // Test names and run logs

  /** `addTestName`: remember the name under (class, id). */
  function AddTestName(names: Names, testClass: string, id: TestId, name: string): (r: Names)
    ensures r.Keys == names.Keys + {GlobalTestId(testClass, id)}
    ensures r[GlobalTestId(testClass, id)] == name
    ensures forall g :: g in names && g != GlobalTestId(testClass, id) ==> r[g] == names[g]
  {
    names[GlobalTestId(testClass, id) := name]
  }

  /** `getTestName`: the name must have been found before. */
  function GetTestName(names: Names, testClass: string, id: TestId): string
    requires GlobalTestId(testClass, id) in names
  {
    names[GlobalTestId(testClass, id)]
  }

  /** The events of `run` so far; a run with no events has an empty log. */
  function RunLog(runs: Runs, run: RunId): seq<RunEvent> {
    if run in runs then runs[run] else []
  }

  /** `addRunEvent`: append to the end of this run's log, creating the log if
      absent, and leave every other run's log as it was. */
  function AddRunEvent(runs: Runs, run: RunId, ev: RunEvent): (r: Runs)
    ensures r.Keys == runs.Keys + {run}
    ensures r[run] == RunLog(runs, run) + [ev]
    ensures forall other :: other != run ==> RunLog(r, other) == RunLog(runs, other)
  {
    runs[run := RunLog(runs, run) + [ev]]
  }

  // ---------------------------------------------------------------------
  // RunStatusEvaluator

  function CountStarted(events: seq<RunEvent>): nat {
    if events == [] then 0
    else (if events[0].Started? then 1 else 0) + CountStarted(events[1..])
  }

  function CountFinished(events: seq<RunEvent>): nat {
    if events == [] then 0
    else (if events[0].Finished? then 1 else 0) + CountFinished(events[1..])
  }

  function CountFailed(events: seq<RunEvent>): nat {
    if events == [] then 0
    else (if events[0].Failed? then 1 else 0) + CountFailed(events[1..])
  }

  /** The running-tests counter after firing one event on the evaluator. */
  function StatusStep(running: int, ev: RunEvent): int {
    match ev
    case Started(_, _) => running + 1
    case Finished(_, _) => running - 1
    case Failed(_, _, _) => running
  }

  /** Fire the events on an evaluator whose counter starts at `running`. */
  function EvaluateStatus(running: int, events: seq<RunEvent>): int
    decreases |events|
  {
    if events == [] then running
    else EvaluateStatus(StatusStep(running, events[0]), events[1..])
  }

  /** `isRunFinished`: the counter is back to zero. */
  predicate IsRunFinished(events: seq<RunEvent>) {
    EvaluateStatus(0, events) == 0
  }

  /** The evaluator's counter is the number of starts minus the number of
      finishes; failures do not move it. */
  lemma {:induction false} EvaluateStatusCounts(running: int, events: seq<RunEvent>)
    ensures EvaluateStatus(running, events) == running + CountStarted(events) - CountFinished(events)
    decreases |events|
  {
    if events != [] {
      EvaluateStatusCounts(StatusStep(running, events[0]), events[1..]);
    }
  }

  /** A run is finished iff its log holds as many starts as finishes. */
  lemma RunFinishedIff(events: seq<RunEvent>)
    ensures IsRunFinished(events) <==> CountStarted(events) == CountFinished(events)
  {
    EvaluateStatusCounts(0, events);
  }

  // ---------------------------------------------------------------------
  // RunPrinter

  /** `testNameIndent`: two spaces per running test. */
  function Indent(running: int): (s: string)
    ensures |s| == 2 * (if running > 0 then running else 0)
    ensures forall k :: 0 <= k < |s| ==> s[k] == ' '
    decreases if running > 0 then running else 0
  {
    if running <= 0 then "" else Indent(running - 1) + "  "
  }

  /** `testNameIndent` as the loop that builds the indentation. */
  method TestNameIndent(runningTests: int) returns (indent: string)
    ensures indent == Indent(runningTests)
  {
    indent := "";
    var i := 0;
    while i < runningTests
      invariant 0 <= i
      invariant i <= runningTests || i == 0
      invariant indent == Indent(i)
    {
      indent := indent + "  ";
      i := i + 1;
    }
  }

  /** A run event can be printed once the name of its test is known; a
      failure prints its cause and needs no name. */
  predicate Named(names: Names, ev: RunEvent) {
    ev.Failed? || Gid(ev) in names
  }

  predicate AllNamed(names: Names, events: seq<RunEvent>) {
    forall i :: 0 <= i < |events| ==> Named(names, events[i])
  }

  datatype Printer = Printer(running: int, console: Console)

  function Last<T>(s: seq<T>): T
    requires |s| > 0
  {
    s[|s| - 1]
  }

  /** One event fired on the run printer. A start prints the run header
      exactly when no test is running, then a `+` line indented by the
      counter before it goes up; a finish prints a `-` line indented by the
      counter after it goes down; a failure prints its stack trace to `err`. */
  function PrinterStep(names: Names, run: RunId, p: Printer, ev: RunEvent): (r: Printer)
    requires Named(names, ev)
    ensures r.running == StatusStep(p.running, ev)
    ensures p.console.out <= r.console.out && p.console.err <= r.console.err
    ensures ev.Started? ==>
      && |r.console.out| == |p.console.out| + (if p.running == 0 then 2 else 1)
      && (p.running == 0 ==> r.console.out[|p.console.out|] == RunHeader(run, ev.testClass))
      && Last(r.console.out) == TestLine(Indent(p.running), Plus, names[Gid(ev)])
      && r.console.err == p.console.err
    ensures ev.Finished? ==>
      && r.console.out == p.console.out + [TestLine(Indent(r.running), Minus, names[Gid(ev)])]
      && r.console.err == p.console.err
    ensures ev.Failed? ==>
      r.console == p.console.(err := p.console.err + [StackTrace(ev.cause)])
  {
    match ev
    case Started(c, id) =>
      var header := if p.running == 0 then [RunHeader(run, c)] else [];
      var line := TestLine(Indent(p.running), Plus, GetTestName(names, c, id));
      Printer(p.running + 1, p.console.(out := p.console.out + header + [line]))
    case Finished(c, id) =>
      var running := p.running - 1;
      var line := TestLine(Indent(running), Minus, GetTestName(names, c, id));
      Printer(running, p.console.(out := p.console.out + [line]))
    case Failed(_, _, cause) =>
      Printer(p.running, p.console.(err := p.console.err + [StackTrace(cause)]))
  }

  /** Fire a run's events on the printer in log order. The printer counts
      running tests exactly as the status evaluator does, prints at least
      one `out` line per start and per finish, and one `err` line per
      failure. */
  function PrintEvents(names: Names, run: RunId, p: Printer, events: seq<RunEvent>): (r: Printer)
    requires AllNamed(names, events)
    ensures r.running == EvaluateStatus(p.running, events)
    ensures p.console.out <= r.console.out && p.console.err <= r.console.err
    ensures |r.console.out| >= |p.console.out| + CountStarted(events) + CountFinished(events)
    ensures |r.console.err| == |p.console.err| + CountFailed(events)
    decreases |events|
  {
    if events == [] then p
    else
      assert Named(names, events[0]);
      PrintEvents(names, run, PrinterStep(names, run, p, events[0]), events[1..])
  }

  /** `printRun`: print one run's whole log with a fresh printer. */
  function PrintRun(names: Names, run: RunId, events: seq<RunEvent>, console: Console): Console
    requires AllNamed(names, events)
  {
    PrintEvents(names, run, Printer(0, console), events).console
  }

  /** Printing a log with one more event is printing the log and then
      firing that event on the printer. */
  lemma {:induction false} PrintEventsSnoc(
    names: Names, run: RunId, p: Printer, events: seq<RunEvent>, ev: RunEvent)
    requires AllNamed(names, events + [ev])
    ensures AllNamed(names, events) && Named(names, ev)
    ensures PrintEvents(names, run, p, events + [ev])
         == PrinterStep(names, run, PrintEvents(names, run, p, events), ev)
    decreases |events|
  {
    assert forall i :: 0 <= i < |events| ==> (events + [ev])[i] == events[i];
    assert (events + [ev])[|events|] == ev;
    if events == [] {
      assert [] + [ev] == [ev];
    } else {
      assert (events + [ev])[1..] == events[1..] + [ev];
      assert (events + [ev])[0] == events[0];
      PrintEventsSnoc(names, run, PrinterStep(names, run, p, events[0]), events[1..], ev);
    }
  }

  /** A start and its matching finish (the finish that brings the counter
      back to where it was before the start) are printed with the same
      indentation. */
  lemma MatchingLinesShareIndent(
    names: Names, run: RunId, console: Console, events: seq<RunEvent>, i: nat, j: nat)
    requires AllNamed(names, events)
    requires i < j < |events|
    requires events[i].Started? && events[j].Finished?
    requires EvaluateStatus(0, events[..i]) == EvaluateStatus(0, events[..j + 1])
    ensures AllNamed(names, events[..i + 1]) && AllNamed(names, events[..j + 1])
    ensures var start := PrintEvents(names, run, Printer(0, console), events[..i + 1]).console.out;
            var finish := PrintEvents(names, run, Printer(0, console), events[..j + 1]).console.out;
            |start| > 0 && |finish| > 0
            && Last(start).TestLine? && Last(start).bullet == Plus
            && Last(finish).TestLine? && Last(finish).bullet == Minus
            && Last(start).indent == Last(finish).indent
  {
    var p0 := Printer(0, console);
    assert events[..i + 1] == events[..i] + [events[i]];
    assert events[..j + 1] == events[..j] + [events[j]];
    PrintEventsSnoc(names, run, p0, events[..i], events[i]);
    PrintEventsSnoc(names, run, p0, events[..j], events[j]);
  }

  /** A finished run that has at least one finish prints something. */
  lemma FinishedRunPrints(names: Names, run: RunId, events: seq<RunEvent>, console: Console)
    requires AllNamed(names, events)
    requires CountFinished(events) > 0
    ensures |PrintRun(names, run, events, console).out| > |console.out|
  {
  }

  // ---------------------------------------------------------------------
  // SuiteListener handlers

  /** The summary line: fail and total count distinct tests, and pass is
      their difference. */
  function SummaryOf(total: set<GlobalTestId>, failed: set<GlobalTestId>): Line {
    Summary(|total| - |failed|, |failed|, |total|)
  }

  /** `onSuiteFinished`: print a blank line and the summary, where pass is
      the number of distinct started tests minus the number of distinct
      failed tests, and stop updating. */
  function OnSuiteFinished(ui: UI): (r: UI)
    ensures r.suiteFinished
    ensures r.console.out == ui.console.out
      + [Blank, SummaryOf(ui.total, ui.failed)]
    ensures r.console.err == ui.console.err
    ensures r.names == ui.names && r.runs == ui.runs
    ensures r.failed == ui.failed && r.total == ui.total
  {
    ui.(console := ui.console.(out := ui.console.out + [Blank, SummaryOf(ui.total, ui.failed)]),
        suiteFinished := true)
  }

  /** `onTestFound`: remember the test's name. */
  function OnTestFound(ui: UI, testClass: string, id: TestId, name: string): (r: UI)
    ensures r.names.Keys == ui.names.Keys + {GlobalTestId(testClass, id)}
    ensures r.names[GlobalTestId(testClass, id)] == name
    ensures r.(names := ui.names) == ui
  {
    ui.(names := AddTestName(ui.names, testClass, id, name))
  }

  /** `onTestStarted`: log the start in its run and count the test once. */
  function OnTestStarted(ui: UI, run: RunId, testClass: string, id: TestId): (r: UI)
    ensures run in r.runs && r.runs[run] == RunLog(ui.runs, run) + [Started(testClass, id)]
    ensures forall other :: other != run ==> RunLog(r.runs, other) == RunLog(ui.runs, other)
    ensures r.total == ui.total + {GlobalTestId(testClass, id)}
    ensures r.(runs := ui.runs, total := ui.total) == ui
  {
    ui.(runs := AddRunEvent(ui.runs, run, Started(testClass, id)),
        total := ui.total + {GlobalTestId(testClass, id)})
  }

  /** `onFailure`: log the failure in its run and count the test as failed. */
  function OnFailure(ui: UI, run: RunId, testClass: string, id: TestId, cause: string): (r: UI)
    ensures run in r.runs && r.runs[run] == RunLog(ui.runs, run) + [Failed(testClass, id, cause)]
    ensures forall other :: other != run ==> RunLog(r.runs, other) == RunLog(ui.runs, other)
    ensures r.failed == ui.failed + {GlobalTestId(testClass, id)}
    ensures r.(runs := ui.runs, failed := ui.failed) == ui
  {
    ui.(runs := AddRunEvent(ui.runs, run, Failed(testClass, id, cause)),
        failed := ui.failed + {GlobalTestId(testClass, id)})
  }

  /** What `getTestName` asserts when a finish completes its run: the run
      will be printed, so all its tests must have names. */
  predicate CanPrintAfterFinish(ui: UI, run: RunId, testClass: string, id: TestId) {
    var events := RunLog(ui.runs, run) + [Finished(testClass, id)];
    IsRunFinished(events) ==> AllNamed(ui.names, events)
  }

  /** `onTestFinished`: log the finish, then print the run's whole log if and
      only if that finish completed the run; otherwise print nothing. */
  function OnTestFinished(ui: UI, run: RunId, testClass: string, id: TestId): (r: UI)
    requires CanPrintAfterFinish(ui, run, testClass, id)
    ensures run in r.runs && r.runs[run] == RunLog(ui.runs, run) + [Finished(testClass, id)]
    ensures forall other :: other != run ==> RunLog(r.runs, other) == RunLog(ui.runs, other)
    ensures r.console.out != ui.console.out <==> IsRunFinished(r.runs[run])
    ensures IsRunFinished(r.runs[run]) ==>
      r.console == PrintRun(ui.names, run, r.runs[run], ui.console)
    ensures !IsRunFinished(r.runs[run]) ==> r.console == ui.console
    ensures r.(runs := ui.runs, console := ui.console) == ui
  {
    var runs := AddRunEvent(ui.runs, run, Finished(testClass, id));
    var logged := ui.(runs := runs);
    if IsRunFinished(runs[run]) then
      assert CountFinished([Finished(testClass, id)]) == 1;
      CountFinishedAppend(RunLog(ui.runs, run), [Finished(testClass, id)]);
      FinishedRunPrints(ui.names, run, runs[run], ui.console);
      logged.(console := PrintRun(ui.names, run, runs[run], ui.console))
    else
      logged
  }

  lemma {:induction false} CountFinishedAppend(a: seq<RunEvent>, b: seq<RunEvent>)
    ensures CountFinished(a + b) == CountFinished(a) + CountFinished(b)
    decreases |a|
  {
    if a == [] {
      assert a + b == b;
    } else {
      assert (a + b)[1..] == a[1..] + b;
      CountFinishedAppend(a[1..], b);
    }
  }

  /** The calls of this stream event would not fail `getTestName`'s assert. */
  predicate Printable(ui: UI, ev: SuiteEvent) {
    ev.TestFinished? ==> CanPrintAfterFinish(ui, ev.run, ev.testClass, ev.id)
  }

  /** The distinct tests started in a stretch of the stream. */
  function StartedIds(stream: seq<SuiteEvent>): set<GlobalTestId> {
    if stream == [] then {}
    else (if stream[0].TestStarted? then {GlobalTestId(stream[0].testClass, stream[0].id)} else {})
         + StartedIds(stream[1..])
  }

  /** The distinct tests that failed in a stretch of the stream. */
  function FailedIds(stream: seq<SuiteEvent>): set<GlobalTestId> {
    if stream == [] then {}
    else (if stream[0].Failure? then {GlobalTestId(stream[0].testClass, stream[0].id)} else {})
         + FailedIds(stream[1..])
  }

  /** The tests a single stream event starts or fails. */
  lemma SingleEventIds(ev: SuiteEvent)
    ensures StartedIds([ev]) == if ev.TestStarted? then {GlobalTestId(ev.testClass, ev.id)} else {}
    ensures FailedIds([ev]) == if ev.Failure? then {GlobalTestId(ev.testClass, ev.id)} else {}
  {

  }

  /** The event one stream event adds to the log of `run`, if any. */
  function RunEventOf(ev: SuiteEvent, run: RunId): seq<RunEvent> {
    match ev
    case TestStarted(r, c, id) => if r == run then [Started(c, id)] else []
    case TestFinished(r, c, id) => if r == run then [Finished(c, id)] else []
    case Failure(r, c, id, cause) => if r == run then [Failed(c, id, cause)] else []
    case _ => []
  }

  /** The events a stretch of the stream adds to the log of `run`. */
  function RunEventsOf(stream: seq<SuiteEvent>, run: RunId): seq<RunEvent> {
    if stream == [] then []
    else RunEventOf(stream[0], run) + RunEventsOf(stream[1..], run)
  }

  /** The log of a finish event's run once the finish is appended. */
  function CompletedLog(ui: UI, ev: SuiteEvent): seq<RunEvent>
    requires ev.TestFinished?
  {
    RunLog(ui.runs, ev.run) + [Finished(ev.testClass, ev.id)]
  }

  /** What the handler of `ev` does besides counting and the summary: a
      found test's name is stored, the event is appended to the log of its
      own run and of no other, a finish that completes its run prints the
      run's whole log, and no other event prints anything. */
  ghost predicate Handled(ui: UI, ev: SuiteEvent, r: UI) {
    && r.names == (if ev.TestFound? then AddTestName(ui.names, ev.testClass, ev.id, ev.name) else ui.names)
    && (forall run :: RunLog(r.runs, run) == RunLog(ui.runs, run) + RunEventOf(ev, run))
    && (ev.TestFinished? && IsRunFinished(CompletedLog(ui, ev)) && AllNamed(ui.names, CompletedLog(ui, ev)) ==>
          r.console == PrintRun(ui.names, ev.run, CompletedLog(ui, ev), ui.console))
    && (!(ev.TestFinished? && IsRunFinished(CompletedLog(ui, ev))) && ev != SuiteFinished ==>
          r.console == ui.console)
  }

  /** Everything `fireOn(this)` promises about the state after `ev`. */
  ghost predicate Fired(ui: UI, ev: SuiteEvent, r: UI) {
    && (r.suiteFinished <==> ui.suiteFinished || ev == SuiteFinished)
    && r.total == ui.total + StartedIds([ev])
    && r.failed == ui.failed + FailedIds([ev])
    && ui.console.out <= r.console.out && ui.console.err <= r.console.err
    && (ev == SuiteFinished ==>
          r.console.out == ui.console.out + [Blank, SummaryOf(r.total, r.failed)])
    && Handled(ui, ev, r)
  }

  /** `fireOn(this)`: dispatch one stream event to its handler. */
  function Fire(ui: UI, ev: SuiteEvent): (r: UI)
    requires Printable(ui, ev)
    ensures r.suiteFinished <==> ui.suiteFinished || ev == SuiteFinished
    ensures r.total == ui.total + StartedIds([ev])
    ensures r.failed == ui.failed + FailedIds([ev])
    ensures ui.console.out <= r.console.out && ui.console.err <= r.console.err
    ensures ev == SuiteFinished ==>
      r.console.out == ui.console.out + [Blank, SummaryOf(r.total, r.failed)]
    ensures Handled(ui, ev, r)
  {
    match ev
    case SuiteStarted =>
      FiredWithoutHandler(ui, ev);
      ui
    case SuiteFinished =>
      FiredSuiteFinished(ui, ev);
      OnSuiteFinished(ui)
    case TestFound(c, id, name) =>
      FiredFound(ui, ev);
      OnTestFound(ui, c, id, name)
    case TestStarted(run, c, id) =>
      FiredStarted(ui, ev);
      OnTestStarted(ui, run, c, id)
    case TestFinished(run, c, id) =>
      FiredFinished(ui, ev);
      OnTestFinished(ui, run, c, id)
    case Failure(run, c, id, cause) =>
      FiredFailure(ui, ev);
      OnFailure(ui, run, c, id, cause)
  }

  lemma FiredWithoutHandler(ui: UI, ev: SuiteEvent)
    requires ev.SuiteStarted?
    ensures Fired(ui, ev, ui)
  {
    SingleEventIds(ev);
    NoRunEvent(ev);
  }

  lemma FiredSuiteFinished(ui: UI, ev: SuiteEvent)
    requires ev.SuiteFinished?
    ensures Fired(ui, ev, OnSuiteFinished(ui))
  {
    SingleEventIds(ev);
    NoRunEvent(ev);
  }

  lemma FiredFound(ui: UI, ev: SuiteEvent)
    requires ev.TestFound?
    ensures Fired(ui, ev, OnTestFound(ui, ev.testClass, ev.id, ev.name))
  {
    SingleEventIds(ev);
    NoRunEvent(ev);
  }

  lemma FiredStarted(ui: UI, ev: SuiteEvent)
    requires ev.TestStarted?
    ensures Fired(ui, ev, OnTestStarted(ui, ev.run, ev.testClass, ev.id))
  {
    var r := OnTestStarted(ui, ev.run, ev.testClass, ev.id);
    SingleEventIds(ev);
    AppendedToRun(ui.runs, r.runs, ev, Started(ev.testClass, ev.id));
  }

  lemma FiredFailure(ui: UI, ev: SuiteEvent)
    requires ev.Failure?
    ensures Fired(ui, ev, OnFailure(ui, ev.run, ev.testClass, ev.id, ev.cause))
  {
    var r := OnFailure(ui, ev.run, ev.testClass, ev.id, ev.cause);
    SingleEventIds(ev);
    AppendedToRun(ui.runs, r.runs, ev, Failed(ev.testClass, ev.id, ev.cause));
  }

  lemma FiredFinished(ui: UI, ev: SuiteEvent)
    requires ev.TestFinished? && Printable(ui, ev)
    ensures Fired(ui, ev, OnTestFinished(ui, ev.run, ev.testClass, ev.id))
  {
    var r := OnTestFinished(ui, ev.run, ev.testClass, ev.id);
    SingleEventIds(ev);
    AppendedToRun(ui.runs, r.runs, ev, Finished(ev.testClass, ev.id));
    assert r.runs[ev.run] == CompletedLog(ui, ev);
    assert IsRunFinished(r.runs[ev.run]) ==> ui.console.out <= r.console.out;
  }

  /** Suite events and found tests belong to no run. */
  lemma NoRunEvent(ev: SuiteEvent)
    requires ev.SuiteStarted? || ev.SuiteFinished? || ev.TestFound?
    ensures forall run :: RunEventOf(ev, run) == []
  {
  }

  /** A handler that appends `e` to the log of `ev`'s run and leaves every
      other run alone adds to each run's log exactly what `ev` contributes. */
  lemma AppendedToRun(before: Runs, after: Runs, ev: SuiteEvent, e: RunEvent)
    requires ev.TestStarted? || ev.TestFinished? || ev.Failure?
    requires RunEventOf(ev, ev.run) == [e]
    requires ev.run in after && after[ev.run] == RunLog(before, ev.run) + [e]
    requires forall other :: other != ev.run ==> RunLog(after, other) == RunLog(before, other)
    ensures forall run :: RunLog(after, run) == RunLog(before, run) + RunEventOf(ev, run)
  {
    forall run
      ensures RunLog(after, run) == RunLog(before, run) + RunEventOf(ev, run)
    {
      if run != ev.run {
        assert RunEventOf(ev, run) == [];
      }
    }
  }

  /** The run-log events of a single stream event. */
  lemma SingleEventRunLog(ev: SuiteEvent)
    ensures forall run :: RunEventsOf([ev], run) == RunEventOf(ev, run)
  {
    assert [ev][1..] == [];
  }

  // ---------------------------------------------------------------------
  // update and updateUntilFinished

  /** No `getTestName` assert fails while `update` consumes `stream`. */
  predicate SafeAlong(ui: UI, stream: seq<SuiteEvent>)
    decreases |stream|
  {
    ui.suiteFinished || stream == []
    || (Printable(ui, stream[0]) && SafeAlong(Fire(ui, stream[0]), stream[1..]))
  }

  /** The state after `update` and the events it left in the stream. */
  datatype Updated = Updated(ui: UI, rest: seq<SuiteEvent>)

  /** `update` consumes a prefix of the stream; it stops only at the end of
      the stream or once the suite has finished; the event that finished the
      suite is the last one consumed, so later events stay in the stream. */
  ghost predicate ConsumesUntilFinished(ui: UI, stream: seq<SuiteEvent>, r: Updated) {
    var k := |stream| - |r.rest|;
    && |r.rest| <= |stream| && r.rest == stream[k..]
    && (ui.suiteFinished ==> r == Updated(ui, stream))
    && (r.rest != [] ==> r.ui.suiteFinished)
    && (!ui.suiteFinished ==> (r.ui.suiteFinished <==> SuiteFinished in stream))
    && (!ui.suiteFinished && SuiteFinished in stream ==>
          k > 0 && stream[k - 1] == SuiteFinished && SuiteFinished !in stream[..k - 1])
  }

  /** The started and failed sets grow by the tests of the consumed events,
      each (class, id) counted once. */
  ghost predicate CountsConsumed(ui: UI, stream: seq<SuiteEvent>, r: Updated) {
    var k := |stream| - |r.rest|;
    && 0 <= k
    && r.ui.total == ui.total + StartedIds(stream[..k])
    && r.ui.failed == ui.failed + FailedIds(stream[..k])
  }

  /** Each run's log grows by exactly that run's events among the consumed
      ones, in stream order. */
  ghost predicate LogsConsumed(ui: UI, stream: seq<SuiteEvent>, r: Updated) {
    var k := |stream| - |r.rest|;
    && 0 <= k
    && forall run :: RunLog(r.ui.runs, run) == RunLog(ui.runs, run) + RunEventsOf(stream[..k], run)
  }

  /** Output is only appended to, and once `update` finishes the suite the
      summary of the final counts is the last thing printed. */
  ghost predicate SummaryLast(ui: UI, r: Updated) {
    && ui.console.out <= r.ui.console.out
    && (!ui.suiteFinished && r.ui.suiteFinished ==>
          && |r.ui.console.out| >= 2
          && r.ui.console.out[|r.ui.console.out| - 2..]
             == [Blank, SummaryOf(r.ui.total, r.ui.failed)])
  }

  /** `update`: fire polled events until the stream is empty or the suite
      has finished. */
  function Update(ui: UI, stream: seq<SuiteEvent>): (r: Updated)
    requires SafeAlong(ui, stream)
    ensures ConsumesUntilFinished(ui, stream, r)
    ensures CountsConsumed(ui, stream, r)
    ensures SummaryLast(ui, r)
    ensures LogsConsumed(ui, stream, r)
    decreases |stream|
  {
    if ui.suiteFinished || stream == [] then
      assert stream[..0] == [];
      Updated(ui, stream)
    else
      var next := Fire(ui, stream[0]);
      var r := Update(next, stream[1..]);
      ConsumesStep(ui, stream, next, r);
      CountsStep(ui, stream, next, r);
      SummaryStep(ui, stream, next, r);
      LogsStep(ui, stream, next, r);
      r
  }

  /** Firing the head event and then updating with the rest consumes the
      whole stream up to the event that finished the suite. */
  lemma ConsumesStep(ui: UI, stream: seq<SuiteEvent>, next: UI, r: Updated)
    requires !ui.suiteFinished && stream != []
    requires next.suiteFinished <==> stream[0] == SuiteFinished
    requires ConsumesUntilFinished(next, stream[1..], r)
    ensures ConsumesUntilFinished(ui, stream, r)
  {

  }

  /** The tests counted by the head event and by the rest add up. */
  lemma CountsStep(ui: UI, stream: seq<SuiteEvent>, next: UI, r: Updated)
    requires stream != []
    requires next.total == ui.total + StartedIds([stream[0]])
    requires next.failed == ui.failed + FailedIds([stream[0]])
    requires 0 < |stream| - |r.rest| && |r.rest| <= |stream[1..]|
    requires CountsConsumed(next, stream[1..], r)
    ensures CountsConsumed(ui, stream, r)
  {
    var k := |stream| - |r.rest|;
    var tail := stream[1..];
    assert stream[..k] == [stream[0]] + tail[..k - 1];
    assert stream[..k][1..] == tail[..k - 1];
    assert StartedIds(stream[..k]) == StartedIds([stream[0]]) + StartedIds(tail[..k - 1]);
    assert FailedIds(stream[..k]) == FailedIds([stream[0]]) + FailedIds(tail[..k - 1]);
  }

  /** The run-log events of the head event and of the rest add up. */
  lemma LogsStep(ui: UI, stream: seq<SuiteEvent>, next: UI, r: Updated)
    requires stream != []
    requires forall run :: RunLog(next.runs, run) == RunLog(ui.runs, run) + RunEventOf(stream[0], run)
    requires 0 < |stream| - |r.rest| && |r.rest| <= |stream[1..]|
    requires LogsConsumed(next, stream[1..], r)
    ensures LogsConsumed(ui, stream, r)
  {
    var k := |stream| - |r.rest|;
    var tail := stream[1..];
    assert stream[..k] == [stream[0]] + tail[..k - 1];
    assert stream[..k][1..] == tail[..k - 1];
    SingleEventRunLog(stream[0]);
    forall run
      ensures RunLog(r.ui.runs, run) == RunLog(ui.runs, run) + RunEventsOf(stream[..k], run)
    {
      assert RunEventsOf(stream[..k], run) == RunEventsOf([stream[0]], run) + RunEventsOf(tail[..k - 1], run);
    }
  }

  /** The summary printed by the head event, or later, stays last. */
  lemma SummaryStep(ui: UI, stream: seq<SuiteEvent>, next: UI, r: Updated)
    requires !ui.suiteFinished && stream != []
    requires next.suiteFinished <==> stream[0] == SuiteFinished
    requires ui.console.out <= next.console.out
    requires stream[0] == SuiteFinished ==>
      next.console.out == ui.console.out + [Blank, SummaryOf(next.total, next.failed)]
    requires next.suiteFinished ==> r.ui == next
    requires SummaryLast(next, r)
    ensures SummaryLast(ui, r)
  {
  }

  /** `updateUntilFinished`: like `update`, but `take` waits for more events,
      so the stream must eventually finish the suite. */
  function UpdateUntilFinished(ui: UI, stream: seq<SuiteEvent>): (r: Updated)
    requires ui.suiteFinished || SuiteFinished in stream
    requires SafeAlong(ui, stream)
    ensures r.ui.suiteFinished
    ensures r == Update(ui, stream)
    decreases |stream|
  {
    if ui.suiteFinished then Updated(ui, stream)
    else
      assert stream == [stream[0]] + stream[1..];
      UpdateUntilFinished(Fire(ui, stream[0]), stream[1..])
  }

  /** From a UI that has counted nothing yet, the summary
      counts each (class, id) once however often it started or failed, and
      pass is the difference of the two counts. */
  lemma SummaryCountsDistinctTests(ui: UI, stream: seq<SuiteEvent>) returns (r: Updated, consumed: seq<SuiteEvent>)
    requires !ui.suiteFinished && ui.total == {} && ui.failed == {}
    requires SafeAlong(ui, stream)
    requires SuiteFinished in stream
    ensures r == Update(ui, stream)
    ensures |r.rest| <= |stream| && consumed == stream[..|stream| - |r.rest|]
    ensures |r.ui.console.out| >= 2
            && Last(r.ui.console.out) == SummaryOf(StartedIds(consumed), FailedIds(consumed))
  {
    r := Update(ui, stream);
    consumed := stream[..|stream| - |r.rest|];
    SummaryOfConsumed(ui, stream, r);
  }

  lemma SummaryOfConsumed(ui: UI, stream: seq<SuiteEvent>, r: Updated)
    requires ui.total == {} && ui.failed == {} && !ui.suiteFinished && r.ui.suiteFinished
    requires |r.rest| <= |stream|
    requires CountsConsumed(ui, stream, r)
    requires SummaryLast(ui, r)
    ensures |r.ui.console.out| >= 2
    ensures Last(r.ui.console.out)
         == SummaryOf(StartedIds(stream[..|stream| - |r.rest|]), FailedIds(stream[..|stream| - |r.rest|]))
  {

  }

  /** In this stretch of the stream, every failure of a test comes after a
      start of the same (class, id). */
  ghost predicate StartedBeforeFailing(stream: seq<SuiteEvent>) {
    forall j :: 0 <= j < |stream| && stream[j].Failure? ==>
      exists i :: 0 <= i < j && stream[i].TestStarted?
        && GlobalTestId(stream[i].testClass, stream[i].id) == GlobalTestId(stream[j].testClass, stream[j].id)
  }

  /** The started ids are exactly the ids of the starts in the stream. */
  lemma {:induction false} StartedIdsMembers(stream: seq<SuiteEvent>, g: GlobalTestId)
    ensures g in StartedIds(stream) <==>
      exists i :: 0 <= i < |stream| && stream[i].TestStarted?
        && GlobalTestId(stream[i].testClass, stream[i].id) == g
    decreases |stream|
  {
    if stream != [] {
      StartedIdsMembers(stream[1..], g);
      if g in StartedIds(stream[1..]) {
        var i :| 0 <= i < |stream[1..]| && stream[1..][i].TestStarted?
          && GlobalTestId(stream[1..][i].testClass, stream[1..][i].id) == g;
        assert stream[i + 1] == stream[1..][i];
      }
      if exists i :: 0 < i < |stream| && stream[i].TestStarted?
          && GlobalTestId(stream[i].testClass, stream[i].id) == g {
        var i :| 0 < i < |stream| && stream[i].TestStarted?
          && GlobalTestId(stream[i].testClass, stream[i].id) == g;
        assert stream[1..][i - 1] == stream[i];
      }
    }
  }

  /** The failed ids are exactly the ids of the failures in the stream. */
  lemma {:induction false} FailedIdsMembers(stream: seq<SuiteEvent>, g: GlobalTestId)
    ensures g in FailedIds(stream) <==>
      exists j :: 0 <= j < |stream| && stream[j].Failure?
        && GlobalTestId(stream[j].testClass, stream[j].id) == g
    decreases |stream|
  {
    if stream != [] {
      FailedIdsMembers(stream[1..], g);
      if g in FailedIds(stream[1..]) {
        var j :| 0 <= j < |stream[1..]| && stream[1..][j].Failure?
          && GlobalTestId(stream[1..][j].testClass, stream[1..][j].id) == g;
        assert stream[j + 1] == stream[1..][j];
      }
      if exists j :: 0 < j < |stream| && stream[j].Failure?
          && GlobalTestId(stream[j].testClass, stream[j].id) == g {
        var j :| 0 < j < |stream| && stream[j].Failure?
          && GlobalTestId(stream[j].testClass, stream[j].id) == g;
        assert stream[1..][j - 1] == stream[j];
      }
    }
  }

  /** A stream that starts every test before failing it fails only started
      tests. The handler itself adds a failure whether or not the test
      started, so this is a property of the stream, not of the UI. */
  lemma FailedAreStarted(stream: seq<SuiteEvent>)
    requires StartedBeforeFailing(stream)
    ensures FailedIds(stream) <= StartedIds(stream)
  {
    forall g | g in FailedIds(stream)
      ensures g in StartedIds(stream)
    {
      FailedIdsMembers(stream, g);
      StartedIdsMembers(stream, g);
    }
  }

  /** From a UI that has counted nothing yet, on a stream that starts every
      test before failing it, the printed pass count is the number of
      distinct tests that started and never failed, so it is not negative. */
  lemma PassCountIsStartedButNotFailed(ui: UI, stream: seq<SuiteEvent>)
    requires !ui.suiteFinished && ui.total == {} && ui.failed == {}
    requires SafeAlong(ui, stream)
    requires SuiteFinished in stream
    requires StartedBeforeFailing(stream)
    ensures var r := Update(ui, stream);
            var consumed := stream[..|stream| - |r.rest|];
            |r.ui.console.out| >= 2 && Last(r.ui.console.out).Summary?
            && Last(r.ui.console.out).pass == |StartedIds(consumed) - FailedIds(consumed)| >= 0
  {
    var r, consumed := SummaryCountsDistinctTests(ui, stream);
    PrefixStartedBeforeFailing(stream, |stream| - |r.rest|);
    FailedAreStarted(consumed);
    CardinalityOfDifference(StartedIds(consumed), FailedIds(consumed));
  }

  /** A prefix of a stream that starts every test before failing it does so
      too. */
  lemma PrefixStartedBeforeFailing(stream: seq<SuiteEvent>, k: nat)
    requires k <= |stream|
    requires StartedBeforeFailing(stream)
    ensures StartedBeforeFailing(stream[..k])
  {
    var prefix := stream[..k];
    forall j | 0 <= j < |prefix| && prefix[j].Failure?
      ensures exists i :: (0 <= i < j && prefix[i].TestStarted? &&
        GlobalTestId(prefix[i].testClass, prefix[i].id) == GlobalTestId(prefix[j].testClass, prefix[j].id))
    {
      assert prefix[j] == stream[j];
      var i :| 0 <= i < j && stream[i].TestStarted?
        && GlobalTestId(stream[i].testClass, stream[i].id) == GlobalTestId(stream[j].testClass, stream[j].id);
      assert prefix[i] == stream[i];
    }
  }

  /** Removing a subset removes exactly its elements from the count. */
  lemma CardinalityOfDifference(total: set<GlobalTestId>, failed: set<GlobalTestId>)
    requires failed <= total
    ensures |total| - |failed| == |total - failed|
  {
    assert total == (total - failed) + failed;
  }
}
